=== FILE: README.md ===
# Report orchestration of secman, modelled in Dafny

This project models the report core of the secman scanner aggregator. That is the logic in
`services/reportService.go` that pulls reports from two scanning engines, Acunetix and ZAP, and
keeps a company-scoped catalog of them. It also models the store rules of
`services/userService.go` that decide which records an operation may touch.

Every network exchange and every database call is an input of the model. So a function of the
model is the function the Go code computes once its I/O is fixed:

- A scanner reply is a `Reply<T>`. It is one of:
  - a transport failure;
  - a body that could not be read;
  - a status code plus the body decoded to a `T`, or `None` when the JSON did not decode.
- A settings lookup is a `Result<ScannerSetting, string>`.
- The database is a `Db` value holding:
  - users, keyed by id;
  - companies and reports, as sequences in insertion order (the Go queries fix no such order;
    see "Left out");
  - scanner settings, keyed by (company, scanner).
- A database error is an `Option<string>` "fault" parameter. An operation that gets a fault
  leaves the store unchanged. The `services/userService.go` operations and `GetZAPReports` also
  return it. `GenerateZAPReport` is the exception: a failed catalog write is only logged, and the
  generated path is still returned, with the fault kept in its `Bookkeeping` value.

Modules:

- `Wrappers`: `Option` and `Result`.
- `Text`: `strconv.Itoa` with its parser, and `strings.Join` with `Split`. Parsing a rendered
  number gives the number back. Splitting a join gives the parts back when there is at least
  one part and no part contains the separator; otherwise joins can collide
  (`["a|b"]` and `["a", "b"]` join alike, and no parts split to `[""]`).
- `Models`: the records (`AcunetixReports` envelope, `ScannerSetting`, `User`, `Company`,
  `Report`), the `Db` store and `Reply`.
- `Pagination`: the cursor walker of `GetAcunetixReports`. It is a recursive function over a
  finite sequence of replies, one per request sent.
  - If the replies run out before the walk stops, the result says so (`OutOfReplies`).
  - `json.Unmarshal` into the walker's one variable is modelled as `Absorb`, a
    replace-or-keep step: a reply that decodes to an envelope replaces the held one, and
    anything else keeps it. Under that step the envelope returned is the last page that
    decoded, not a union of pages (`LatestIsLastDecoded`). Go merges a body into the held
    value key by key, which this step does not capture (see "Left out").
  - A non-200 status is only logged (`StatusIsIgnored`).
  - A reply that does not decode leaves the cursor where it was, so the next request repeats
    the previous one (`UndecodableReplyRepeatsRequest`). A scanner that keeps sending
    undecodable bodies after a page that named a next cursor keeps the Go loop on that cursor
    forever.
- `AcunetixReports`: `GetAcunetixReports` and `CreateAcunetixReport`.
  - The listing rewrites each report's download link from the scanner settings.
  - Creation maps target URLs to scan ids, skipping unknown URLs, and posts one request with
    the fixed template id. Only status 201 counts as success.
- `ZapReports`: `GenerateZAPReport` and `GetZAPReports`.
  - Generation builds the query, then sorts the single reply into one of six distinct error
    kinds or a path.
  - A path is returned even when the catalog entry cannot be written.
  - The listing is a filter by (company, `"ZAP"`).
- `UserService`: `UpdateUser`, `UpdateScannerSetting`, `GetOrCreateCompany`, `MakeAdmin`,
  `MakeUser` and `UpdateUserCompany`, as transitions on `Db`.

Three consequences of the code that the model keeps:

- The walk returns the last decoded page. Pages are not merged into one list.
- A failed settings lookup after the walk returns the walked envelope together with the
  error, not an empty envelope.
- The download link is the configured URL, a colon, the port in decimal, then
  `/api/v1/reports/` and the report id. The configured URL carries the scheme itself.

## Model

| member | source | states |
|---|---|---|
| Text.Itoa | services/reportService.go:105 | the port renders canonically: digits only when it is not negative, `-` then digits when it is, no leading zero and no `-0`; `ItoaRoundTrip` is its inverse |
| Text.ItoaRoundTrip | services/reportService.go:105 | the port rendered by `strconv.Itoa` parses back to the same integer, negative ports included |
| Text.NatToDecimal | services/reportService.go:105 | the decimal rendering is non-empty, all digits, has no leading zero, is `0` for zero and denotes the number |
| Text.Join | services/reportService.go:178 | no sites give the empty string; the first site is a prefix, followed by `\|` when more sites follow; with sites free of `\|`, the separator occurs one time fewer than there are sites; `SplitJoin` is its inverse |
| Text.SplitJoin | services/reportService.go:178 | splitting the `\|`-joined site list on `\|` gives the sites back when there is at least one and none contains `\|` |
| Pagination.Endpoint | services/reportService.go:49-52 | every request path starts with `/api/v1/reports?l=99`; it is exactly that when there is no cursor, and otherwise continues with `&c=` and the cursor |
| Pagination.EndpointInjective | services/reportService.go:49-52 | distinct cursors give distinct request paths, the first request carrying no cursor |
| Pagination.NextCursor | services/reportService.go:68-81 | the walk continues exactly when the cursor list has at least two entries and the second is non-empty; the cursor followed is that second entry |
| Pagination.WalkFrom | services/reportService.go:48-82 | no more requests than replies; the first request carries the starting cursor; a transport failure ends the walk at once; a finished walk holds the envelope after the answered replies and that envelope names no next page; the walk reports running out of replies only when the held envelope still names a next page (or no reply was given) |
| Pagination.WalkAll | services/reportService.go:44-82 | the first request carries no cursor; every later one is the list path plus `&c=` and the non-empty second cursor of the last page decoded before it; the envelope held at the end is the last page that decoded, or the zero envelope when none did; running out of replies means that envelope still names a next page |
| Pagination.RequestsFollowCursors | services/reportService.go:49-77 | every request after the first is the list path plus `&c=` and the second cursor of the envelope held after the previous reply, which is non-empty |
| Pagination.LatestIsLastDecoded | services/reportService.go:44-66 | the held envelope is the last page that decoded, or the starting envelope if none did |
| Pagination.Absorb | services/reportService.go:66 | after a reply the held envelope is either the previous one or the page the reply decoded to; a decoded page always replaces it; a transport failure or unreadable body keeps it |
| Pagination.LatestSnoc | services/reportService.go:66 | absorbing one more reply replaces the held envelope exactly when that reply decodes |
| Pagination.StatusIsIgnored | services/reportService.go:61-64 | two reply sequences that differ only in status codes produce the same requests and the same outcome |
| Pagination.UndecodableReplyRepeatsRequest | services/reportService.go:66-77 | after a later reply that does not decode, the next request is identical to the one just answered |
| AcunetixReports.DownloadLink | services/reportService.go:105 | a download link splits back into the scanner URL, `:`, the port exactly as `Itoa` renders it (which parses back), `/api/v1/reports/` and the report id |
| AcunetixReports.DownloadLinkExample | services/reportService.go:105 | URL `https://scanner.example`, port 3443 and report `R1` give `https://scanner.example:3443/api/v1/reports/R1` |
| AcunetixReports.WithDownloadLinks | services/reportService.go:104-110 | same number of reports in the same order; each has exactly one download, its synthesised link; every other field is unchanged |
| AcunetixReports.GetAcunetixReports | services/reportService.go:43-113 | the requests are those of the cursor walk `WalkAll`, the first being `/api/v1/reports?l=99`; the replies count as exhausted only when the last decoded page still names a next page, so a final page among the replies always gives a listing; a transport failure returns the empty envelope and that error; a settings failure returns the walked envelope and that error; otherwise no error, same pagination, and the reports rewritten with synthesised links |
| AcunetixReports.WalkStopsAtFirstFinalPage | services/reportService.go:68-81 | the walk ends right after the first reply whose last decoded envelope names no next page, and no earlier |
| AcunetixReports.ReconcileScanIds | services/reportService.go:120-127 | an id is in the output exactly when some target is in the table and maps to it; output no longer than the targets; equal length when all targets are known |
| AcunetixReports.ReconcileAppend | services/reportService.go:120-127 | reconciliation distributes over concatenation of target lists, so ids come out in target order |
| AcunetixReports.ReconcileExample | services/reportService.go:120-127 | targets `a`, `b` with only `a` mapped to `S1` give exactly `S1` |
| AcunetixReports.CreateAcunetixReport | services/reportService.go:116-161 | a POST to `/api/v1/reports` with the fixed template id, list type `scans` and exactly the reconciled scan ids in target order; success exactly on status 201; transport, read and status failures kept apart |
| ZapReports.QueryValueAt | services/reportService.go:188-194 | a parameter no earlier parameter shares a key with is found by its key |
| ZapReports.GenerationQuery | services/reportService.go:178-194 | the query is exactly six parameters with distinct keys: the api key, the title as title and file name, template `modern`, display `true`, and the `\|`-join of the sites, which splits back into the sites |
| ZapReports.CatalogEntry | services/reportService.go:246-251 | the catalog record carries the title, the acting user's company, the generated path and type `ZAP` |
| ZapReports.RecordReport | services/reportService.go:238-259 | the path is returned in every case; a record is added exactly when the user exists and the write succeeds, and it is title, user's company, path, `ZAP` |
| ZapReports.GenerateZapReport | services/reportService.go:174-260 | success exactly on a 200 reply decoding to a non-empty path, which is returned; settings, transport, read, status, decode and empty-path failures are distinct errors and leave the store unchanged; at most one catalog entry is added |
| ZapReports.GenerationExamples | services/reportService.go:231-256 | `generate` empty yields the empty-artifact error; a generated `/tmp/r.html` is returned with no error even when the catalog write fails |
| ZapReports.FilterReports | services/reportService.go:274 | a report is listed exactly when it is stored with the company and the tag |
| ZapReports.FilterAppend | services/reportService.go:274 | filtering a report list extended at the end extends the filtered list at the end |
| ZapReports.GetZapReports | services/reportService.go:262-281 | an unknown user or a query failure gives that error; otherwise exactly the stored reports of the user's company tagged `ZAP`, in the model's insertion order |
| ZapReports.GenerationThenListing | services/reportService.go:245-256 | after a saved generation, the listing of a user of the same company gains exactly the new record, placed last in the model's insertion order; every other listing is unchanged |
| ZapReports.ListingIsCompanyScoped | services/reportService.go:274 | no listing ever contains a report owned by another company |
| UserService.UpdateUser | services/userService.go:72-86 | name, surname and email each become the argument when it is non-empty and keep their value when it is empty; other fields, users and tables are unchanged |
| UserService.UpdateUserIdempotent | services/userService.go:72-86 | repeating an update leaves the store as after the first |
| UserService.SettingChangesFor | services/userService.go:93-106 | the update set holds the API key and URL exactly when non-empty and the port exactly when non-zero, each with the setting's own value |
| UserService.UpdateScannerSetting | services/userService.go:88-119 | an existing (company, scanner) record takes only the non-empty, non-zero fields and keeps the rest; no change is no error; a missing record is inserted as given; a lookup error is returned; other records are unchanged and keys stay well formed |
| UserService.UpdateScannerSettingIdempotent | services/userService.go:88-119 | applying the same setting twice gives the store and result of applying it once |
| UserService.FirstNamed | services/userService.go:50 | the position of the first company with the name, or none when no company has it |
| UserService.GetOrCreateCompany | services/userService.go:47-70 | a known name returns the id of the first company with that name in insertion order and creates nothing; an unknown name creates exactly one company with that name and returns the new id; any error returns the nil id and leaves the store unchanged |
| UserService.GetOrCreateCompanyStable | services/userService.go:47-70 | a second call with the same name returns the same id and changes nothing |
| UserService.SetRoleByEmail | services/userService.go:199 | users with the email get the role; every other field and every other user stay as they were |
| UserService.MakeAdmin | services/userService.go:198-208 | users with the email become `admin`, nobody else changes, zero matches is no error |
| UserService.MakeUser | services/userService.go:210-220 | users with the email become `user`, nobody else changes, zero matches is no error |
| UserService.LaterRoleWins | services/userService.go:198-220 | making users plain after making them admins is the same as only making them plain |
| UserService.UpdateUserCompany | services/userService.go:175-187 | only the matching user's company id changes; an unknown id is no error and changes nothing |
| UserService.MovedUserSeesNewCompanyReports | services/userService.go:175-187 | after a move, the user's ZAP listing is exactly the new company's ZAP reports |

## Left out

- HTTP transport, reading bodies and closing them are inputs, not modelled. This covers
  `SendGETRequestAcunetix`, `SendCustomRequestAcunetix` and `SendGETRequestZap`. A reply is a
  `Reply<T>` value.
- `Pagination.Absorb`: Go's `json.Unmarshal` into the walker's non-zero variable overwrites
  only the keys the body carries. A body of `null` or `{}`, or a page without a `pagination`
  key, keeps the previous cursors, and the loop then requests the same cursor again. A type
  mismatch in one field leaves the other fields decoded. The model either replaces the whole
  envelope with the decoded page or keeps it whole, because a key-by-key merge needs a model
  of JSON values, which is outside this core.
- `Pagination.Absorb`: the error of `io.ReadAll` at services/reportService.go:60 is ignored,
  and whatever bytes were read are still decoded. The model treats an unreadable body as one
  that did not decode. That matches Go only when the partial bytes are not valid JSON.
- The `models` package is not part of this model. Records carry only the fields the services
  read or write, and the Acunetix pagination block carries only its cursor list.
- `url.Values.Encode` sorting and percent-encoding are not modelled. The query is the ordered
  parameter list as the code adds it. The request's host and port are kept as the settings give
  them.
- `json.Marshal` of the creation body cannot fail for this fixed shape, so that error branch is
  not modelled.
- `AssetService.GetAllAcunetixScan` and the table it fills are not part of this model. The URL to
  scan-id table is a parameter of `CreateAcunetixReport`.
- `AcunetixGetUserSettings` and `getUserScannerZAPSettings` are not part of this model. Their
  answers are parameters.
- Logging is not modelled. The Go code's warnings about bookkeeping show as the `Bookkeeping`
  value of a generation.
- Timestamps (`generation_date`, `created_at`, `updated_at`) are opaque or not modelled.
  Catalog records carry no generated id. Fresh UUIDs are parameters.
- `GetUserByID` is a lookup in the user map; a database error there is modelled as the user
  being absent. Both lead to the same branches in the callers.
- The unused globals `reportsResponseModel`, `groupNameReportIdMap` and `reportPathPrefix` are
  not modelled, and neither is the constructor `NewReportService`.
- Row order: the model keeps companies and reports in insertion order. The report query at
  services/reportService.go:274 has no `ORDER BY`, and GORM's `First` at
  services/userService.go:50 takes the row with the smallest primary key. "First" and "last" in
  the rows above refer to insertion order, which Go does not promise.
- `UserService.GetOrCreateCompany`: with several companies of one name it returns the first in
  insertion order, where Go returns the one with the smallest UUID, which need not be the oldest.
- `ZapReports.GetZapReports`: the listing is in insertion order; Go's result order is whatever the
  database returns.
- `GetScannerSetting` is not modelled. Its `First` ignores the scanner kind, so its result
  depends on store order.
- These are single-query pass-throughs with no rule of their own, so they are not modelled:
  `EmailExists`, `CompanyExists`, `CompanyExistsByName`, `CompanyExistsByID`, `RegisterUser`,
  `CreateCompany`, `GetUserByEmail`, `GetCompanyIDByName`, `DeleteUser` and `GetUsers`.
- The model has no concurrency and no cancellation. The code issues its requests one after
  another.

=== FILE: acunetix_reports.dfy ===
/** The Acunetix half of services/reportService.go: listing reports with
    synthesised download links (`GetAcunetixReports`) and asking the scanner
    to build one report over a set of scans (`CreateAcunetixReport`). */
module AcunetixReports {
  import opened Wrappers
  import opened Text
  import opened Models
  import opened Pagination

  /** The one report template every creation request names. */
  const TemplateId := "11111111-1111-1111-1111-111111111126"

  /** Path of a report on the scanner, after the base URL and port. */
  const ReportsPath := "/api/v1/reports/"

  /** The link `GetAcunetixReports` puts in place of a report's downloads.
      It can be taken apart again: the URL, then `:`, then the port in
      decimal, then the reports path, then the report id. Distinct reports
      therefore get distinct links. */
  function DownloadLink(setting: ScannerSetting, reportId: string): (link: string)
    ensures var portStart := |setting.scannerUrl| + 1;
            var portEnd := |link| - |ReportsPath| - |reportId|;
            && portStart <= portEnd
            && link[..|setting.scannerUrl|] == setting.scannerUrl
            && link[|setting.scannerUrl|] == ':'
            && link[portStart..portEnd] == Itoa(setting.scannerPort)
            && ParseInt(link[portStart..portEnd]) == Some(setting.scannerPort)
            && link[portEnd..portEnd + |ReportsPath|] == ReportsPath
            && link[portEnd + |ReportsPath|..] == reportId
  {
    var port := Itoa(setting.scannerPort);
    ItoaRoundTrip(setting.scannerPort);
    LinkFields(setting.scannerUrl, port, reportId);
    setting.scannerUrl + ":" + port + ReportsPath + reportId
  }

  /** Where each piece of a link sits. */
  lemma LinkFields(url: string, port: string, reportId: string)
    ensures var link := url + ":" + port + ReportsPath + reportId;
            var portEnd := |url| + 1 + |port|;
            && |link| == portEnd + |ReportsPath| + |reportId|
            && link[..|url|] == url
            && link[|url|] == ':'
            && link[|url| + 1..portEnd] == port
            && link[portEnd..portEnd + |ReportsPath|] == ReportsPath
            && link[portEnd + |ReportsPath|..] == reportId
  {
  }

  /** An example link: URL `https://scanner.example`, port 3443, report `R1`. */
  lemma DownloadLinkExample()
    ensures DownloadLink(ScannerSetting(NilUuid, NilUuid, "acunetix", "", "https://scanner.example", 3443), "R1")
            == "https://scanner.example:3443/api/v1/reports/R1"
  {
    var setting := ScannerSetting(NilUuid, NilUuid, "acunetix", "", "https://scanner.example", 3443);
    PortExample();
    assert DownloadLink(setting, "R1") == "https://scanner.example" + ":" + "3443" + ReportsPath + "R1";
    ExampleLinkText();
  }

  /** The pieces of the example link, spelled out. */
  lemma ExampleLinkText()
    ensures "https://scanner.example" + ":" + "3443" + ReportsPath + "R1"
            == "https://scanner.example:3443/api/v1/reports/R1"
  {
  }

  /** Port 3443 in decimal. */
  lemma PortExample()
    ensures Itoa(3443) == "3443"
  {
    assert DigitChar(3) == '3' && DigitChar(4) == '4';
    assert NatToDecimal(3) == "3";
    assert NatToDecimal(34) == "34";
    assert NatToDecimal(344) == "344";
  }

  /** The rewrite loop of services/reportService.go:104-110. */
  function WithDownloadLinks(reports: seq<AcunetixReport>, setting: ScannerSetting): (r: seq<AcunetixReport>)
    ensures |r| == |reports|
    ensures forall i :: 0 <= i < |r| ==> r[i].download == [DownloadLink(setting, reports[i].reportId)]
    ensures forall i :: 0 <= i < |r| ==> r[i].(download := reports[i].download) == reports[i]
  {
    seq(|reports|, i requires 0 <= i < |reports| =>
      reports[i].(download := [DownloadLink(setting, reports[i].reportId)]))
  }

  /** What `GetAcunetixReports` hands back: the requests it sent, the
      envelope and the error, or the fact that the replies ran out first. */
  datatype Listing =
    | Listed(requests: seq<string>, envelope: AcunetixReports, err: Option<string>)
    | RepliesExhausted(requests: seq<string>)

  /** `GetAcunetixReports`: walk the pages, then rewrite the download links
      with the company's Acunetix settings. `setting` is the answer of the
      settings lookup, consulted only once the walk has ended. */
  function GetAcunetixReports(replies: seq<Reply<AcunetixReports>>, setting: Result<ScannerSetting, string>): (l: Listing)
    ensures |l.requests| <= |replies|
    ensures l.requests == WalkAll(replies).requests
    ensures |l.requests| > 0 ==> l.requests[0] == ListPath
    ensures forall i :: 0 <= i < |l.requests| - 1 ==> !replies[i].TransportFailure?
    ensures l.RepliesExhausted? <==> WalkAll(replies).outcome.OutOfReplies?
    ensures l.RepliesExhausted? ==> |l.requests| == |replies|
    // the replies are exhausted only if the last page decoded still names a next page
    ensures l.RepliesExhausted? && |replies| > 0 ==> NextCursor(LastDecoded(replies).GetOr(EmptyReports)).Some?
    ensures l.Listed? ==> |l.requests| >= 1
    // a transport failure ends the walk at once with an empty envelope
    ensures l.Listed? && replies[|l.requests| - 1].TransportFailure? ==>
              l.envelope == EmptyReports && l.err == Some(replies[|l.requests| - 1].err)
    // a failed settings lookup returns the walked envelope untouched
    ensures l.Listed? && !replies[|l.requests| - 1].TransportFailure? && setting.Failure? ==>
              && l.envelope == Latest(EmptyReports, replies[..|l.requests|])
              && l.err == Some(setting.error)
    // otherwise the same reports in the same order, each with one synthesised link
    ensures l.Listed? && !replies[|l.requests| - 1].TransportFailure? && setting.Success? ==>
              var walked := Latest(EmptyReports, replies[..|l.requests|]);
              && l.err.None?
              && NextCursor(walked) == None
              && l.envelope.pagination == walked.pagination
              && |l.envelope.reports| == |walked.reports|
              && (forall i :: 0 <= i < |walked.reports| ==>
                    && l.envelope.reports[i].download == [DownloadLink(setting.value, walked.reports[i].reportId)]
                    && l.envelope.reports[i].(download := walked.reports[i].download) == walked.reports[i])
  {
    var walk := WalkAll(replies);
    match walk.outcome
    case Aborted(e) => Listed(walk.requests, EmptyReports, Some(e))
    case OutOfReplies(_) => RepliesExhausted(walk.requests)
    case Finished(env) =>
      match setting
      case Failure(e) => Listed(walk.requests, env, Some(e))
      case Success(s) => Listed(walk.requests, env.(reports := WithDownloadLinks(env.reports, s)), None)
  }

  /** The walk stops right after the first page whose cursor list ends it,
      and the envelope returned is the last page that decoded. */
  lemma WalkStopsAtFirstFinalPage(replies: seq<Reply<AcunetixReports>>, setting: Result<ScannerSetting, string>)
    requires GetAcunetixReports(replies, setting).Listed?
    requires !replies[|GetAcunetixReports(replies, setting).requests| - 1].TransportFailure?
    ensures var n := |GetAcunetixReports(replies, setting).requests|;
            && NextCursor(LastDecoded(replies[..n]).GetOr(EmptyReports)) == None
            && forall k :: 1 <= k < n ==> NextCursor(LastDecoded(replies[..k]).GetOr(EmptyReports)).Some?
  {
    var n := |GetAcunetixReports(replies, setting).requests|;
    LatestIsLastDecoded(EmptyReports, replies[..n]);
    forall k | 1 <= k < n
      ensures NextCursor(LastDecoded(replies[..k]).GetOr(EmptyReports)).Some?
    {
      RequestsFollowCursors(replies, "", EmptyReports, k);
      LatestIsLastDecoded(EmptyReports, replies[..k]);
    }
  }

  /** The scan ids of the targets the lookup table knows, in target order;
      unknown targets are skipped (services/reportService.go:120-127). */
  function ReconcileScanIds(targets: seq<string>, scans: map<string, string>): (ids: seq<string>)
    ensures |ids| <= |targets|
    ensures forall id :: id in ids <==> exists t :: t in targets && t in scans && scans[t] == id
    ensures (forall t :: t in targets ==> t in scans) ==> |ids| == |targets|
    decreases |targets|
  {
    if |targets| == 0 then []
    else
      var rest := ReconcileScanIds(targets[1..], scans);
      assert forall t :: t in targets <==> t == targets[0] || t in targets[1..];
      if targets[0] in scans then [scans[targets[0]]] + rest else rest
  }

  /** Reconciling a concatenation reconciles each part in turn: the order of
      the targets is the order of the ids. */
  lemma {:induction false} ReconcileAppend(a: seq<string>, b: seq<string>, scans: map<string, string>)
    ensures ReconcileScanIds(a + b, scans) == ReconcileScanIds(a, scans) + ReconcileScanIds(b, scans)
    decreases |a|
  {
    if |a| == 0 {
      assert a + b == b;
    } else {
      assert (a + b)[0] == a[0];
      assert (a + b)[1..] == a[1..] + b;
      ReconcileAppend(a[1..], b, scans);
    }
  }

  /** An example: targets `a`, `b` with only `a` known as `S1`. */
  lemma ReconcileExample()
    ensures ReconcileScanIds(["a", "b"], map["a" := "S1"]) == ["S1"]
  {
    assert ["a", "b"][1..] == ["b"];
    assert ["b"][1..] == [];
  }

  /** The request `CreateAcunetixReport` sends. */
  datatype CreationRequest = CreationRequest(verb: string, path: string, body: GenerateReport)

  /** How the creation call ended; the Go code only logs these. */
  datatype CreationOutcome =
    | Created
    | RequestFailed(err: string)
    | ResponseUnreadable(err: string)
    | Rejected(status: int)

  datatype Creation = Creation(request: CreationRequest, outcome: CreationOutcome)

  /** `CreateAcunetixReport`: map the targets to scan ids with `scans` (the
      table `GetAllAcunetixScan` fills), post one creation request, and judge
      the reply. The reply's decoded body plays no part. */
  function CreateAcunetixReport(targets: seq<string>, scans: map<string, string>, reply: Reply<()>): (c: Creation)
    ensures c.request.verb == "POST" && c.request.path == "/api/v1/reports"
    ensures c.request.body.templateId == TemplateId
    ensures c.request.body.source.listType == "scans"
    ensures c.request.body.source.idList == ReconcileScanIds(targets, scans)
    ensures forall id :: id in c.request.body.source.idList <==>
              exists t :: t in targets && t in scans && scans[t] == id
    ensures c.outcome == Created <==> reply.Delivered? && reply.status == 201
    ensures reply.TransportFailure? ==> c.outcome == RequestFailed(reply.err)
    ensures reply.Unreadable? ==> c.outcome == ResponseUnreadable(reply.err)
    ensures reply.Delivered? && reply.status != 201 ==> c.outcome == Rejected(reply.status)
  {
    var body := GenerateReport(TemplateId, CreationSource("scans", ReconcileScanIds(targets, scans)));
    var request := CreationRequest("POST", "/api/v1/reports", body);
    match reply
    case TransportFailure(e) => Creation(request, RequestFailed(e))
    case Unreadable(_, e) => Creation(request, ResponseUnreadable(e))
    case Delivered(status, _) =>
      if status == 201 then Creation(request, Created) else Creation(request, Rejected(status))
  }
}

=== FILE: models.dfy ===
/** The records the services read and write, the in-memory store that stands
    for the relational database, and the shape of one HTTP exchange with a
    scanner. Only the fields the services touch are modelled. */
module Models {
  import opened Wrappers

  /** A UUID, as an opaque number; `NilUuid` is `uuid.Nil`. */
  type Uuid = nat

  const NilUuid: Uuid := 0

  /** A `time.Time`, kept opaque: nothing in the core computes with it. */
  datatype Timestamp = Timestamp(ticks: int)

  /** The `source` block of an Acunetix report descriptor. */
  datatype Source = Source(listType: string, description: string, idList: seq<string>)

  /** One element of the `reports` array of the Acunetix list endpoint. */
  datatype AcunetixReport = AcunetixReport(
    download: seq<string>,
    generationDate: Timestamp,
    reportId: string,
    source: Source,
    status: string,
    templateId: string,
    templateName: string,
    templateType: int)

  /** The `pagination` block; only the cursor list drives the walk. */
  datatype PaginationInfo = PaginationInfo(cursors: seq<string>)

  /** `models.AcunetixReports`: the envelope every list page returns. */
  datatype AcunetixReports = AcunetixReports(reports: seq<AcunetixReport>, pagination: PaginationInfo)

  /** The zero value of the envelope, before anything is decoded into it. */
  const EmptyReports := AcunetixReports([], PaginationInfo([]))

  /** `models.Source` of a report-creation request. */
  datatype CreationSource = CreationSource(listType: string, idList: seq<string>)

  /** `models.GenerateReport`: the body of a report-creation request. */
  datatype GenerateReport = GenerateReport(templateId: string, source: CreationSource)

  /** `models.ScannerSetting`: connection parameters of one scanner for one company. */
  datatype ScannerSetting = ScannerSetting(
    id: Uuid,
    companyId: Uuid,
    scanner: string,
    apiKey: string,
    scannerUrl: string,
    scannerPort: int)

  /** `models.User`. */
  datatype User = User(
    id: Uuid,
    name: string,
    surname: string,
    email: string,
    role: string,
    companyId: Uuid)

  /** `models.Company`. */
  datatype Company = Company(id: Uuid, name: string)

  /** `models.Report`: a company-owned catalog entry for a generated report. */
  datatype Report = Report(name: string, companyId: Uuid, downloadLink: string, reportType: string)

  /** The (company, scanner) pair `UpdateScannerSetting` looks records up by. */
  datatype SettingKey = SettingKey(companyId: Uuid, scanner: string)

  function KeyOf(s: ScannerSetting): SettingKey {
    SettingKey(s.companyId, s.scanner)
  }

  /** The database: users by id, companies and reports in insertion order,
      and scanner settings by key. */
  datatype Db = Db(
    users: map<Uuid, User>,
    companies: seq<Company>,
    settings: map<SettingKey, ScannerSetting>,
    reports: seq<Report>)

  /** Every stored setting sits under the key its own fields name. */
  predicate WellKeyed(db: Db) {
    forall k :: k in db.settings ==> KeyOf(db.settings[k]) == k
  }

  /** The outcome of one HTTP exchange: the request failed, the body could
      not be read, or a status arrived with a body that did or did not
      decode into a `T`. */
  datatype Reply<T> =
    | TransportFailure(err: string)
    | Unreadable(status: int, err: string)
    | Delivered(status: int, decoded: Option<T>)
}

=== FILE: pagination.dfy ===
/** The Acunetix list walker of `GetAcunetixReports`
    (services/reportService.go:43-82): it requests the report list page by
    page, following the second entry of each page's cursor list, and keeps
    whatever the latest page decoded to.

    The replies of the scanner are an input: `replies[k]` answers the k-th
    request the walker sends. A finite sequence of replies can run out before
    the walk ends; that case is reported as `OutOfReplies` rather than
    hidden. */
module Pagination {
  import opened Wrappers
  import opened Models

  /** The list endpoint with its fixed page size of 99. */
  const ListPath := "/api/v1/reports?l=99"

  /** The request path for a cursor: none on the first request, `&c=` and the
      cursor afterwards. */
  function Endpoint(cursor: string): (path: string)
    ensures |path| >= |ListPath| && path[..|ListPath|] == ListPath
    ensures |path| == |ListPath| <==> cursor == ""
    ensures cursor != "" ==>
              |path| == |ListPath| + 3 + |cursor| &&
              path[|ListPath|..|ListPath| + 3] == "&c=" && path[|ListPath| + 3..] == cursor
  {
    if cursor != "" then ListPath + "&c=" + cursor else ListPath
  }

  /** Distinct cursors give distinct requests, so a repeated request means a
      repeated cursor. */
  lemma EndpointInjective(a: string, b: string)
    requires Endpoint(a) == Endpoint(b)
    ensures a == b
  {
  }

  /** `json.Unmarshal` into the walker's one envelope variable: a page that
      decodes replaces it, anything else leaves it as it was. */
  function Absorb(acc: AcunetixReports, reply: Reply<AcunetixReports>): (held: AcunetixReports)
    ensures held == acc || (reply.Delivered? && reply.decoded == Some(held))
    ensures reply.Delivered? && reply.decoded.Some? ==> held == reply.decoded.value
    ensures reply.TransportFailure? || reply.Unreadable? ==> held == acc
  {
    if reply.Delivered? && reply.decoded.Some? then reply.decoded.value else acc
  }

  /** The cursor to follow after an envelope, or `None` when the walk stops:
      the cursor list has fewer than two entries, or its second is empty. */
  function NextCursor(env: AcunetixReports): (c: Option<string>)
    ensures c.Some? <==> |env.pagination.cursors| > 1 && env.pagination.cursors[1] != ""
    ensures c.Some? ==> c.value == env.pagination.cursors[1] && c.value != ""
  {
    var cursors := env.pagination.cursors;
    if |cursors| > 1 && cursors[1] != "" then Some(cursors[1]) else None
  }

  /** The envelope held after absorbing `replies` in order, starting from `acc`. */
  function Latest(acc: AcunetixReports, replies: seq<Reply<AcunetixReports>>): AcunetixReports
    decreases |replies|
  {
    if |replies| == 0 then acc else Latest(Absorb(acc, replies[0]), replies[1..])
  }

  /** The page of the last reply that decoded, if any: a reference
      definition read from the back. */
  function LastDecoded(replies: seq<Reply<AcunetixReports>>): Option<AcunetixReports>
    decreases |replies|
  {
    if |replies| == 0 then None
    else
      var last := replies[|replies| - 1];
      if last.Delivered? && last.decoded.Some? then last.decoded
      else LastDecoded(replies[..|replies| - 1])
  }

  /** Absorbing one more reply at the end. */
  lemma {:induction false} LatestSnoc(acc: AcunetixReports, replies: seq<Reply<AcunetixReports>>, r: Reply<AcunetixReports>)
    ensures Latest(acc, replies + [r]) == Absorb(Latest(acc, replies), r)
    decreases |replies|
  {
    if |replies| > 0 {
      assert (replies + [r])[1..] == replies[1..] + [r];
      LatestSnoc(Absorb(acc, replies[0]), replies[1..], r);
    }
  }

  /** What the walker holds is the last page that decoded, not a union of
      pages; with no decoded page it is the starting envelope. */
  lemma {:induction false} LatestIsLastDecoded(acc: AcunetixReports, replies: seq<Reply<AcunetixReports>>)
    ensures Latest(acc, replies) == LastDecoded(replies).GetOr(acc)
    decreases |replies|
  {
    if |replies| > 0 {
      var init := replies[..|replies| - 1];
      var last := replies[|replies| - 1];
      assert replies == init + [last];
      LatestSnoc(acc, init, last);
      LatestIsLastDecoded(acc, init);
    }
  }

  datatype WalkOutcome =
    | Finished(envelope: AcunetixReports)   // the cursor list said there is no next page
    | Aborted(err: string)                  // a request failed in transport
    | OutOfReplies(envelope: AcunetixReports) // the walk wanted another page than the replies supply

  /** The requests that were answered, in order, and how the walk ended. */
  datatype Walk = Walk(requests: seq<string>, outcome: WalkOutcome)

  /** The loop of services/reportService.go:48-82 from a given cursor and
      envelope. A non-200 status is only logged, so it plays no part. */
  function WalkFrom(replies: seq<Reply<AcunetixReports>>, cursor: string, acc: AcunetixReports): (w: Walk)
    ensures |w.requests| <= |replies|
    ensures |replies| > 0 <==> |w.requests| > 0
    ensures |w.requests| > 0 ==> w.requests[0] == Endpoint(cursor)
    ensures forall i :: 0 <= i < |w.requests| - 1 ==> !replies[i].TransportFailure?
    ensures w.outcome.Aborted? <==> |w.requests| >= 1 && replies[|w.requests| - 1].TransportFailure?
    ensures w.outcome.Aborted? ==> replies[|w.requests| - 1] == TransportFailure(w.outcome.err)
    ensures w.outcome.Finished? ==>
              && |w.requests| >= 1
              && w.outcome.envelope == Latest(acc, replies[..|w.requests|])
              && NextCursor(w.outcome.envelope) == None
    ensures w.outcome.OutOfReplies? ==>
              |w.requests| == |replies| && w.outcome.envelope == Latest(acc, replies)
    // the replies ran out only if the walk still wanted another page
    ensures w.outcome.OutOfReplies? && |replies| > 0 ==> NextCursor(w.outcome.envelope).Some?
    decreases |replies|
  {
    if |replies| == 0 then Walk([], OutOfReplies(acc))
    else
      var request := Endpoint(cursor);
      if replies[0].TransportFailure? then Walk([request], Aborted(replies[0].err))
      else
        var held := Absorb(acc, replies[0]);
        LatestFirstStep(acc, replies, 1);
        match NextCursor(held)
        case None => Walk([request], Finished(held))
        case Some(next) =>
          var rest := WalkFrom(replies[1..], next, held);
          LatestFirstStep(acc, replies, 1 + |rest.requests|);
          assert forall i :: 1 <= i < |replies| ==> replies[1..][i - 1] == replies[i];
          Walk([request] + rest.requests, rest.outcome)
  }

  /** Absorbing a prefix of the replies is absorbing the first, then the rest
      of the prefix. */
  lemma LatestFirstStep(acc: AcunetixReports, replies: seq<Reply<AcunetixReports>>, n: nat)
    requires 1 <= n <= |replies|
    ensures Latest(acc, replies[..n]) == Latest(Absorb(acc, replies[0]), replies[1..][..n - 1])
  {
    assert replies[..n][1..] == replies[1..][..n - 1];
  }

  /** The walk `GetAcunetixReports` performs: no cursor, a zero envelope. */
  function WalkAll(replies: seq<Reply<AcunetixReports>>): (w: Walk)
    ensures |w.requests| <= |replies|
    ensures |replies| > 0 <==> |w.requests| > 0
    // the first request carries no cursor; every later one carries the cursor
    // named by the envelope held after the previous reply
    ensures |w.requests| > 0 ==> w.requests[0] == ListPath
    ensures forall i :: 0 < i < |w.requests| ==>
              && NextCursor(LastDecoded(replies[..i]).GetOr(EmptyReports)).Some?
              && w.requests[i] == Endpoint(NextCursor(LastDecoded(replies[..i]).GetOr(EmptyReports)).value)
    // the envelope held at the end is the last page that decoded
    ensures w.outcome.Finished? ==>
              w.outcome.envelope == LastDecoded(replies[..|w.requests|]).GetOr(EmptyReports)
    ensures w.outcome.OutOfReplies? ==> w.outcome.envelope == LastDecoded(replies).GetOr(EmptyReports)
    ensures w.outcome.OutOfReplies? && |replies| > 0 ==> NextCursor(w.outcome.envelope).Some?
  {
    var w := WalkFrom(replies, "", EmptyReports);
    LatestIsLastDecoded(EmptyReports, replies[..|w.requests|]);
    LatestIsLastDecoded(EmptyReports, replies);
    assert forall i :: 0 < i < |w.requests| ==>
             && NextCursor(LastDecoded(replies[..i]).GetOr(EmptyReports)).Some?
             && w.requests[i] == Endpoint(NextCursor(LastDecoded(replies[..i]).GetOr(EmptyReports)).value) by {
      forall i | 0 < i < |w.requests|
        ensures NextCursor(LastDecoded(replies[..i]).GetOr(EmptyReports)).Some?
        ensures w.requests[i] == Endpoint(NextCursor(LastDecoded(replies[..i]).GetOr(EmptyReports)).value)
      {
        RequestsFollowCursors(replies, "", EmptyReports, i);
        LatestIsLastDecoded(EmptyReports, replies[..i]);
      }
    }
    w
  }

  /** Every request after the first carries the cursor read from the envelope
      held after the previous reply, and that cursor is never empty: the walk
      went on only because the envelope named a next page. */
  lemma {:induction false} RequestsFollowCursors(replies: seq<Reply<AcunetixReports>>, cursor: string, acc: AcunetixReports, i: nat)
    requires 0 < i < |WalkFrom(replies, cursor, acc).requests|
    ensures NextCursor(Latest(acc, replies[..i])).Some?
    ensures WalkFrom(replies, cursor, acc).requests[i] == Endpoint(NextCursor(Latest(acc, replies[..i])).value)
    decreases |replies|
  {
    var held := Absorb(acc, replies[0]);
    var next := NextCursor(held).value;
    var rest := WalkFrom(replies[1..], next, held);
    assert WalkFrom(replies, cursor, acc).requests == [Endpoint(cursor)] + rest.requests;
    LatestFirstStep(acc, replies, i);
    if i > 1 {
      RequestsFollowCursors(replies[1..], next, held, i - 1);
    }
  }

  /** Two reply sequences that differ only in status codes. */
  predicate SameButStatus(a: seq<Reply<AcunetixReports>>, b: seq<Reply<AcunetixReports>>) {
    && |a| == |b|
    && forall i :: 0 <= i < |a| ==> WithoutStatus(a[i]) == WithoutStatus(b[i])
  }

  function WithoutStatus(r: Reply<AcunetixReports>): Reply<AcunetixReports> {
    match r
    case TransportFailure(e) => r
    case Unreadable(_, e) => Unreadable(0, e)
    case Delivered(_, d) => Delivered(0, d)
  }

  /** A non-200 status never stops or alters the walk: it is only logged. */
  lemma {:induction false} StatusIsIgnored(a: seq<Reply<AcunetixReports>>, b: seq<Reply<AcunetixReports>>, cursor: string, acc: AcunetixReports)
    requires SameButStatus(a, b)
    ensures WalkFrom(a, cursor, acc) == WalkFrom(b, cursor, acc)
    decreases |a|
  {
    if |a| > 0 {
      assert WithoutStatus(a[0]) == WithoutStatus(b[0]);
      assert Absorb(acc, a[0]) == Absorb(acc, b[0]);
      assert SameButStatus(a[1..], b[1..]) by {
        forall i | 0 <= i < |a[1..]| ensures WithoutStatus(a[1..][i]) == WithoutStatus(b[1..][i]) {
          assert a[1..][i] == a[i + 1] && b[1..][i] == b[i + 1];
        }
      }
      var next := NextCursor(Absorb(acc, a[0]));
      if !a[0].TransportFailure? && next.Some? {
        StatusIsIgnored(a[1..], b[1..], next.value, Absorb(acc, a[0]));
      }
    }
  }

  /** A reply that does not decode leaves the envelope, and so the cursor,
      as it was: the next request repeats the one just answered. A scanner
      that keeps sending undecodable bodies keeps the loop on one cursor. */
  lemma UndecodableReplyRepeatsRequest(replies: seq<Reply<AcunetixReports>>, cursor: string, acc: AcunetixReports, i: nat)
    requires 0 < i && i + 1 < |WalkFrom(replies, cursor, acc).requests|
    requires !(replies[i].Delivered? && replies[i].decoded.Some?)
    ensures WalkFrom(replies, cursor, acc).requests[i + 1] == WalkFrom(replies, cursor, acc).requests[i]
  {
    RequestsFollowCursors(replies, cursor, acc, i);
    RequestsFollowCursors(replies, cursor, acc, i + 1);
    assert replies[..i + 1] == replies[..i] + [replies[i]];
    LatestSnoc(acc, replies[..i], replies[i]);
    assert Latest(acc, replies[..i + 1]) == Latest(acc, replies[..i]);
  }
}

=== FILE: text.dfy ===
/** The string helpers the services rely on: `strconv.Itoa` for ports and
    `strings.Join` for the site list, each with the inverse that shows it
    loses no information. */
module Text {
  import opened Wrappers

  predicate IsDigit(c: char) {
    '0' <= c <= '9'
  }

  predicate AllDigits(s: string) {
    forall i :: 0 <= i < |s| ==> IsDigit(s[i])
  }

  function DigitValue(c: char): nat
    requires IsDigit(c)
  {
    c as int - '0' as int
  }

  function DigitChar(d: nat): (c: char)
    requires d < 10
    ensures IsDigit(c) && DigitValue(c) == d
  {
    (d + '0' as int) as char
  }

  /** The value of a string of decimal digits, most significant first. */
  function DecimalValue(s: string): nat
    requires AllDigits(s)
    decreases |s|
  {
    if |s| == 0 then 0
    else DecimalValue(s[..|s| - 1]) * 10 + DigitValue(s[|s| - 1])
  }

  /** Decimal rendering of a natural number, without leading zeros. */
  function NatToDecimal(n: nat): (s: string)
    ensures |s| >= 1 && AllDigits(s)
    ensures s[0] == '0' <==> n == 0
    ensures n == 0 ==> s == "0"
    ensures DecimalValue(s) == n
    decreases n
  {
    if n < 10 then [DigitChar(n)]
    else
      var high := NatToDecimal(n / 10);
      var s := high + [DigitChar(n % 10)];
      assert s[..|s| - 1] == high;
      s
  }

  /** `strconv.Itoa`: a minus sign for negative numbers, then the digits. */
  function Itoa(n: int): (s: string)
    ensures |s| >= 1
    ensures n >= 0 ==> AllDigits(s)
    ensures n < 0 ==> s[0] == '-' && AllDigits(s[1..])
    // the canonical rendering: no leading zero, no negative zero
    ensures s[0] == '0' ==> s == "0"
    ensures n < 0 ==> |s| >= 2 && s[1] != '0'
  {
    if n < 0 then "-" + NatToDecimal(-n) else NatToDecimal(n)
  }

  /** `strconv.Atoi` on the strings `Itoa` can produce: an optional minus
      sign followed by at least one digit. */
  function ParseInt(s: string): Option<int> {
    if |s| >= 2 && s[0] == '-' && AllDigits(s[1..]) then
      var magnitude: int := DecimalValue(s[1..]);
      Some(-magnitude)
    else if |s| >= 1 && AllDigits(s) then Some(DecimalValue(s))
    else None
  }

  /** Parsing an `Itoa` rendering gives the number back. */
  lemma ItoaRoundTrip(n: int)
    ensures ParseInt(Itoa(n)) == Some(n)
  {
    if n < 0 {
      var s := Itoa(n);
      assert s[1..] == NatToDecimal(-n);
      assert !IsDigit(s[0]);
    }
  }

  /** `strings.Join` with a one-character separator. */
  function Join(parts: seq<string>, sep: char): (s: string)
    ensures |parts| == 0 ==> s == ""
    ensures |parts| >= 1 ==> |s| >= |parts[0]| && s[..|parts[0]|] == parts[0]
    ensures |parts| >= 2 ==> |s| > |parts[0]| && s[|parts[0]|] == sep
    // with separator-free parts the separator occurs exactly between them
    ensures (forall k :: 0 <= k < |parts| ==> sep !in parts[k]) ==>
              multiset(s)[sep] == if |parts| == 0 then 0 else |parts| - 1
    decreases |parts|
  {
    if |parts| == 0 then ""
    else if |parts| == 1 then parts[0]
    else
      var rest := Join(parts[1..], sep);
      assert (forall k :: 0 <= k < |parts| ==> sep !in parts[k]) ==>
               (forall k :: 0 <= k < |parts[1..]| ==> sep !in parts[1..][k]) by {
        forall k | 0 <= k < |parts[1..]| ensures parts[1..][k] == parts[k + 1] { }
      }
      parts[0] + [sep] + rest
  }

  /** Position of the first occurrence of `c` in `s`. */
  function IndexOf(s: string, c: char): (i: nat)
    requires c in s
    ensures i < |s| && s[i] == c
    ensures forall j :: 0 <= j < i ==> s[j] != c
    decreases |s|
  {
    if s[0] == c then 0 else 1 + IndexOf(s[1..], c)
  }

  /** `strings.Split` with a one-character separator: the pieces between
      separators, at least one. */
  function Split(s: string, sep: char): (parts: seq<string>)
    ensures |parts| >= 1
    ensures forall k :: 0 <= k < |parts| ==> sep !in parts[k]
    decreases |s|
  {
    if sep !in s then [s]
    else
      var i := IndexOf(s, sep);
      assert sep !in s[..i] by {
        forall j | 0 <= j < i ensures s[..i][j] != sep { }
      }
      [s[..i]] + Split(s[i + 1..], sep)
  }

  /** Splitting at the first separator: a separator-free head comes off whole. */
  lemma SplitAfterHead(head: string, rest: string, sep: char)
    requires sep !in head
    ensures Split(head + [sep] + rest, sep) == [head] + Split(rest, sep)
  {
    var s := head + [sep] + rest;
    assert s[|head|] == sep;
    var i := IndexOf(s, sep);
    assert forall j :: 0 <= j < |head| ==> s[j] == head[j];
    assert i == |head|;
    assert s[..i] == head;
    assert s[i + 1..] == rest;
  }

  /** Splitting a join gives the parts back, provided there is at least one
      part and no part contains the separator. */
  lemma {:induction false} SplitJoin(parts: seq<string>, sep: char)
    requires |parts| >= 1
    requires forall k :: 0 <= k < |parts| ==> sep !in parts[k]
    ensures Split(Join(parts, sep), sep) == parts
    decreases |parts|
  {
    if |parts| > 1 {
      var tail := parts[1..];
      assert Join(parts, sep) == parts[0] + [sep] + Join(tail, sep);
      assert forall k :: 0 <= k < |tail| ==> tail[k] == parts[k + 1];
      SplitAfterHead(parts[0], Join(tail, sep), sep);
      SplitJoin(tail, sep);
      assert [parts[0]] + tail == parts;
    }
  }
}

=== FILE: user_service.dfy ===
/** The store operations of services/userService.go that carry rules of
    their own: partial updates that skip empty inputs, the scanner-setting
    upsert, get-or-create of a company by name, and the role and company
    assignments. Each is a transition from one `Db` to the next; `fault`
    parameters stand for an error the database reports, which leaves the
    store as it was. */
module UserService {
  import opened Wrappers
  import opened Models
  import ZapReports

  /** The error a store operation returns and the store after it. */
  datatype StoreResult = StoreResult(err: Option<string>, db: Db)

  /** An input that counts only when non-empty. */
  function NonEmpty(s: string): (o: Option<string>)
    ensures o.Some? <==> s != ""
    ensures o.Some? ==> o.value == s
  {
    if s != "" then Some(s) else None
  }

  /** The update set of `UpdateUser`: one entry per non-empty argument. */
  datatype UserChanges = UserChanges(name: Option<string>, surname: Option<string>, email: Option<string>)

  function ApplyUserChanges(u: User, c: UserChanges): User {
    u.(name := c.name.GetOr(u.name), surname := c.surname.GetOr(u.surname), email := c.email.GetOr(u.email))
  }

  /** `UpdateUser`: overwrite name, surname and email of one user, each only
      when its argument is non-empty. */
  function UpdateUser(db: Db, userId: Uuid, name: string, surname: string, email: string, fault: Option<string>): (r: StoreResult)
    ensures r.err == fault
    ensures fault.Some? ==> r.db == db
    ensures r.db.companies == db.companies && r.db.settings == db.settings && r.db.reports == db.reports
    ensures r.db.users.Keys == db.users.Keys
    ensures forall id :: id in db.users && id != userId ==> r.db.users[id] == db.users[id]
    ensures fault.None? && userId in db.users ==>
              var before := db.users[userId];
              var after := r.db.users[userId];
              && after.name == (if name != "" then name else before.name)
              && after.surname == (if surname != "" then surname else before.surname)
              && after.email == (if email != "" then email else before.email)
              && after.(name := before.name, surname := before.surname, email := before.email) == before
  {
    if fault.Some? || userId !in db.users then StoreResult(fault, db)
    else
      var changes := UserChanges(NonEmpty(name), NonEmpty(surname), NonEmpty(email));
      StoreResult(None, db.(users := db.users[userId := ApplyUserChanges(db.users[userId], changes)]))
  }

  /** Repeating an `UpdateUser` call changes nothing more. */
  lemma UpdateUserIdempotent(db: Db, userId: Uuid, name: string, surname: string, email: string)
    ensures var once := UpdateUser(db, userId, name, surname, email, None).db;
            UpdateUser(once, userId, name, surname, email, None).db == once
  {
  }

  /** The update set of `UpdateScannerSetting`: key and URL when non-empty,
      port when non-zero. */
  datatype SettingChanges = SettingChanges(apiKey: Option<string>, scannerUrl: Option<string>, scannerPort: Option<int>)

  function SettingChangesFor(s: ScannerSetting): (c: SettingChanges)
    ensures c.apiKey.Some? <==> s.apiKey != ""
    ensures c.scannerUrl.Some? <==> s.scannerUrl != ""
    ensures c.scannerPort.Some? <==> s.scannerPort != 0
    ensures c.apiKey.Some? ==> c.apiKey.value == s.apiKey
    ensures c.scannerUrl.Some? ==> c.scannerUrl.value == s.scannerUrl
    ensures c.scannerPort.Some? ==> c.scannerPort.value == s.scannerPort
  {
    SettingChanges(NonEmpty(s.apiKey), NonEmpty(s.scannerUrl), if s.scannerPort != 0 then Some(s.scannerPort) else None)
  }

  predicate NoChanges(c: SettingChanges) {
    c.apiKey.None? && c.scannerUrl.None? && c.scannerPort.None?
  }

  function ApplySettingChanges(s: ScannerSetting, c: SettingChanges): ScannerSetting {
    s.(apiKey := c.apiKey.GetOr(s.apiKey),
       scannerUrl := c.scannerUrl.GetOr(s.scannerUrl),
       scannerPort := c.scannerPort.GetOr(s.scannerPort))
  }

  /** `UpdateScannerSetting`: an upsert keyed by (company, scanner).
      `lookupFault` is a lookup error other than "record not found";
      `writeFault` a failure of the update or insert. */
  function UpdateScannerSetting(db: Db, setting: ScannerSetting, lookupFault: Option<string>, writeFault: Option<string>): (r: StoreResult)
    ensures r.db.users == db.users && r.db.companies == db.companies && r.db.reports == db.reports
    ensures r.err.Some? ==> r.db == db
    ensures lookupFault.Some? ==> r.err == lookupFault
    ensures WellKeyed(db) ==> WellKeyed(r.db)
    // other records stay as they were
    ensures r.db.settings.Keys == db.settings.Keys + {KeyOf(setting)} || r.db.settings == db.settings
    ensures forall k :: k in db.settings && k != KeyOf(setting) ==> r.db.settings[k] == db.settings[k]
    // an existing record takes the non-empty, non-zero fields; nothing to change is no error
    ensures lookupFault.None? && KeyOf(setting) in db.settings ==>
              var before := db.settings[KeyOf(setting)];
              var after := r.db.settings[KeyOf(setting)];
              && (r.err.None? <==> writeFault.None? || NoChanges(SettingChangesFor(setting)))
              && (r.err.Some? ==> r.err == writeFault)
              && (r.err.None? ==>
                    && after.apiKey == (if setting.apiKey != "" then setting.apiKey else before.apiKey)
                    && after.scannerUrl == (if setting.scannerUrl != "" then setting.scannerUrl else before.scannerUrl)
                    && after.scannerPort == (if setting.scannerPort != 0 then setting.scannerPort else before.scannerPort)
                    && after.(apiKey := before.apiKey, scannerUrl := before.scannerUrl, scannerPort := before.scannerPort) == before)
    // a missing record is inserted as given
    ensures lookupFault.None? && KeyOf(setting) !in db.settings ==>
              && r.err == writeFault
              && (r.err.None? ==> r.db.settings == db.settings[KeyOf(setting) := setting])
  {
    var key := KeyOf(setting);
    if lookupFault.Some? then StoreResult(lookupFault, db)
    else if key in db.settings then
      var changes := SettingChangesFor(setting);
      if NoChanges(changes) then StoreResult(None, db)
      else if writeFault.Some? then StoreResult(writeFault, db)
      else StoreResult(None, db.(settings := db.settings[key := ApplySettingChanges(db.settings[key], changes)]))
    else if writeFault.Some? then StoreResult(writeFault, db)
    else StoreResult(None, db.(settings := db.settings[key := setting]))
  }

  /** Applying the same setting twice leaves the store as applying it once. */
  lemma UpdateScannerSettingIdempotent(db: Db, setting: ScannerSetting)
    ensures var once := UpdateScannerSetting(db, setting, None, None);
            var twice := UpdateScannerSetting(once.db, setting, None, None);
            once.err.None? && twice == once
  {
    var key := KeyOf(setting);
    var once := UpdateScannerSetting(db, setting, None, None);
    var changes := SettingChangesFor(setting);
    assert key in once.db.settings;
    if key in db.settings {
      var merged := ApplySettingChanges(db.settings[key], changes);
      if !NoChanges(changes) {
        assert ApplySettingChanges(merged, changes) == merged;
        assert once.db.settings[key := merged] == once.db.settings;
      }
    } else {
      assert ApplySettingChanges(setting, changes) == setting;
      assert once.db.settings[key := setting] == once.db.settings;
    }
  }

  /** Position of the first company with the given name, the row `First`
      returns. */
  function FirstNamed(companies: seq<Company>, name: string): (i: Option<nat>)
    ensures i.Some? ==> i.value < |companies| && companies[i.value].name == name
    ensures i.Some? ==> forall j :: 0 <= j < i.value ==> companies[j].name != name
    ensures i.None? ==> forall j :: 0 <= j < |companies| ==> companies[j].name != name
    decreases |companies|
  {
    if |companies| == 0 then None
    else if companies[0].name == name then Some(0)
    else
      match FirstNamed(companies[1..], name)
      case None => None
      case Some(k) => Some(k + 1)
  }

  datatype CompanyResult = CompanyResult(id: Uuid, err: Option<string>, db: Db)

  /** `GetOrCreateCompany`. `freshId` is the id the store gives a new row;
      `lookupFault` is a lookup error other than "record not found" and
      `createFault` a failure of the insert. */
  function GetOrCreateCompany(db: Db, name: string, freshId: Uuid, lookupFault: Option<string>, createFault: Option<string>): (r: CompanyResult)
    ensures r.db.users == db.users && r.db.settings == db.settings && r.db.reports == db.reports
    ensures r.err.Some? ==> r.id == NilUuid && r.db == db
    ensures lookupFault.Some? ==> r.err == lookupFault
    // a known name: its id, nothing created
    ensures lookupFault.None? && (exists j :: 0 <= j < |db.companies| && db.companies[j].name == name) ==>
              && r.err.None? && r.db == db
              && exists j :: 0 <= j < |db.companies| && db.companies[j].name == name && db.companies[j].id == r.id
    // and that id is the one of the first company with the name, the row `First` returns
    ensures lookupFault.None? && FirstNamed(db.companies, name).Some? ==>
              r.id == db.companies[FirstNamed(db.companies, name).value].id
    // an unknown name: exactly one new company with that name
    ensures lookupFault.None? && (forall j :: 0 <= j < |db.companies| ==> db.companies[j].name != name) ==>
              && r.err == createFault
              && (r.err.None? ==> r.id == freshId && r.db.companies == db.companies + [Company(freshId, name)])
  {
    if lookupFault.Some? then CompanyResult(NilUuid, lookupFault, db)
    else
      match FirstNamed(db.companies, name)
      case Some(i) => CompanyResult(db.companies[i].id, None, db)
      case None =>
        if createFault.Some? then CompanyResult(NilUuid, createFault, db)
        else CompanyResult(freshId, None, db.(companies := db.companies + [Company(freshId, name)]))
  }

  /** A second call with the same name finds what the first found or made. */
  lemma GetOrCreateCompanyStable(db: Db, name: string, freshId: Uuid, otherFreshId: Uuid)
    ensures var first := GetOrCreateCompany(db, name, freshId, None, None);
            var second := GetOrCreateCompany(first.db, name, otherFreshId, None, None);
            second.err.None? && second.id == first.id && second.db == first.db
  {
    var first := GetOrCreateCompany(db, name, freshId, None, None);
    if FirstNamed(db.companies, name).None? {
      var grown := first.db.companies;
      assert grown[|db.companies|].name == name;
      var i := FirstNamed(grown, name);
      assert i == Some(|db.companies|);
    }
  }

  /** Every user with the given email gets `role`; nobody else changes. */
  function SetRoleByEmail(users: map<Uuid, User>, email: string, role: string): (r: map<Uuid, User>)
    ensures r.Keys == users.Keys
    ensures forall id :: id in users ==> r[id].(role := users[id].role) == users[id]
    ensures forall id :: id in users ==> r[id].role == (if users[id].email == email then role else users[id].role)
  {
    map id | id in users :: if users[id].email == email then users[id].(role := role) else users[id]
  }

  /** `MakeAdmin`: the users with this email become admins; none is fine. */
  function MakeAdmin(db: Db, email: string, fault: Option<string>): (r: StoreResult)
    ensures r.err == fault
    ensures fault.Some? ==> r.db == db
    ensures r.db.companies == db.companies && r.db.settings == db.settings && r.db.reports == db.reports
    ensures r.db.users.Keys == db.users.Keys
    ensures fault.None? ==> forall id :: id in db.users ==>
              && r.db.users[id].(role := db.users[id].role) == db.users[id]
              && (r.db.users[id].role == "admin" || db.users[id].email != email)
              && (db.users[id].email != email ==> r.db.users[id] == db.users[id])
  {
    if fault.Some? then StoreResult(fault, db)
    else StoreResult(None, db.(users := SetRoleByEmail(db.users, email, "admin")))
  }

  /** `MakeUser`: the users with this email become plain users; none is fine. */
  function MakeUser(db: Db, email: string, fault: Option<string>): (r: StoreResult)
    ensures r.err == fault
    ensures fault.Some? ==> r.db == db
    ensures r.db.companies == db.companies && r.db.settings == db.settings && r.db.reports == db.reports
    ensures r.db.users.Keys == db.users.Keys
    ensures fault.None? ==> forall id :: id in db.users ==>
              && r.db.users[id].(role := db.users[id].role) == db.users[id]
              && (r.db.users[id].role == "user" || db.users[id].email != email)
              && (db.users[id].email != email ==> r.db.users[id] == db.users[id])
  {
    if fault.Some? then StoreResult(fault, db)
    else StoreResult(None, db.(users := SetRoleByEmail(db.users, email, "user")))
  }

  /** The later role assignment wins: making a user plain after making them
      admin is the same as only making them plain. */
  lemma LaterRoleWins(db: Db, email: string)
    ensures MakeUser(MakeAdmin(db, email, None).db, email, None) == MakeUser(db, email, None)
  {
    var a := MakeUser(MakeAdmin(db, email, None).db, email, None).db.users;
    var b := MakeUser(db, email, None).db.users;
    assert forall id :: id in a ==> a[id] == b[id];
  }

  /** `UpdateUserCompany`: move one user to another company; an unknown user
      is no error. */
  function UpdateUserCompany(db: Db, userId: Uuid, companyId: Uuid, fault: Option<string>): (r: StoreResult)
    ensures r.err == fault
    ensures fault.Some? || userId !in db.users ==> r.db == db
    ensures r.db.companies == db.companies && r.db.settings == db.settings && r.db.reports == db.reports
    ensures r.db.users.Keys == db.users.Keys
    ensures forall id :: id in db.users && id != userId ==> r.db.users[id] == db.users[id]
    ensures fault.None? && userId in db.users ==>
              && r.db.users[userId].companyId == companyId
              && r.db.users[userId].(companyId := db.users[userId].companyId) == db.users[userId]
  {
    if fault.Some? || userId !in db.users then StoreResult(fault, db)
    else StoreResult(None, db.(users := db.users[userId := db.users[userId].(companyId := companyId)]))
  }

  /** After a move, the user's ZAP listing is exactly the new company's
      ZAP reports. */
  lemma MovedUserSeesNewCompanyReports(db: Db, userId: Uuid, companyId: Uuid, x: Report)
    requires userId in db.users
    ensures var moved := UpdateUserCompany(db, userId, companyId, None).db;
            var listing := ZapReports.GetZapReports(moved, userId, None);
            && listing.Success?
            && (x in listing.value <==> x in db.reports && x.companyId == companyId && x.reportType == ZapReports.ZapTag)
  {
  }
}

=== FILE: wrappers.dfy ===
/** Failure-carrying values shared by every module of the model. */
module Wrappers {

  /** A value that may be absent: a decoded JSON body, a map lookup. */
  datatype Option<+T> = None | Some(value: T) {

    /** The held value, or `default` when there is none. */
    function GetOr(default: T): T {
      match this
      case Some(v) => v
      case None => default
    }
  }

  /** The `(value, error)` pair of a Go call, as one value. */
  datatype Result<+R, +E> = Success(value: R) | Failure(error: E)
}

=== FILE: zap_reports.dfy ===
/** The ZAP half of services/reportService.go: generating a report through
    the scanner's generate action (`GenerateZAPReport`) and listing the
    company's catalog of ZAP reports (`GetZAPReports`). */
module ZapReports {
  import opened Wrappers
  import opened Text
  import opened Models

  /** The report-type tag of every catalog entry this module writes or reads. */
  const ZapTag := "ZAP"

  const GeneratePath := "/JSON/reports/action/generate/"

  /** One query parameter, in the order it is added to `url.Values`. */
  datatype QueryParam = QueryParam(key: string, value: string)

  /** The value of the first parameter named `key`. */
  function QueryValue(query: seq<QueryParam>, key: string): Option<string>
    decreases |query|
  {
    if |query| == 0 then None
    else if query[0].key == key then Some(query[0].value)
    else QueryValue(query[1..], key)
  }

  /** A parameter whose key no earlier parameter has is found by its key. */
  lemma {:induction false} QueryValueAt(query: seq<QueryParam>, i: nat)
    requires i < |query|
    requires forall j :: 0 <= j < i ==> query[j].key != query[i].key
    ensures QueryValue(query, query[i].key) == Some(query[i].value)
    decreases i
  {
    if i > 0 {
      QueryValueAt(query[1..], i - 1);
    }
  }

  /** The keys of the generate action, in the order the Go code adds them. */
  const GenerationKeys: seq<string> := ["apikey", "title", "template", "sites", "display", "reportFileName"]

  /** No two keys of the generate action coincide. */
  lemma GenerationKeysDistinct()
    ensures |GenerationKeys| == 6
    ensures forall i, j :: 0 <= i < j < 6 ==> GenerationKeys[i] != GenerationKeys[j]
  {
    var keys := GenerationKeys;
    assert keys[0][0] == 'a' && keys[2][0] == 't' && keys[3][0] == 's' && keys[4][0] == 'd' && keys[5][0] == 'r';
    assert keys[1][1] == 'i' && keys[2][1] == 'e';
  }

  /** The parameters of the generate action, services/reportService.go:188-194.
      They carry the title twice, the fixed template and display flag, and a
      `sites` value that splits back into the sites whenever there is at
      least one and none contains `|`. */
  function GenerationQuery(apiKey: string, title: string, sites: seq<string>): (q: seq<QueryParam>)
    ensures QueryValue(q, "apikey") == Some(apiKey)
    ensures QueryValue(q, "title") == Some(title)
    ensures QueryValue(q, "template") == Some("modern")
    ensures QueryValue(q, "display") == Some("true")
    ensures QueryValue(q, "reportFileName") == Some(title)
    ensures QueryValue(q, "sites") == Some(Join(sites, '|'))
    // these six parameters and no others, each key once
    ensures |q| == 6 && forall i, j :: 0 <= i < j < |q| ==> q[i].key != q[j].key
    ensures |sites| >= 1 && (forall k :: 0 <= k < |sites| ==> '|' !in sites[k]) ==>
              Split(QueryValue(q, "sites").value, '|') == sites
  {
    var q := [ QueryParam("apikey", apiKey),
               QueryParam("title", title),
               QueryParam("template", "modern"),
               QueryParam("sites", Join(sites, '|')),
               QueryParam("display", "true"),
               QueryParam("reportFileName", title) ];
    GenerationKeysDistinct();
    assert forall i :: 0 <= i < 6 ==> q[i].key == GenerationKeys[i];
    QueryValueAt(q, 0);
    QueryValueAt(q, 1);
    QueryValueAt(q, 2);
    QueryValueAt(q, 3);
    QueryValueAt(q, 4);
    QueryValueAt(q, 5);
    assert |sites| >= 1 && (forall k :: 0 <= k < |sites| ==> '|' !in sites[k]) ==>
             Split(Join(sites, '|'), '|') == sites by {
      if |sites| >= 1 && (forall k :: 0 <= k < |sites| ==> '|' !in sites[k]) {
        SplitJoin(sites, '|');
      }
    }
    q
  }

  /** The request sent to ZAP. */
  datatype ZapRequest = ZapRequest(scannerUrl: string, scannerPort: int, apiKey: string, path: string, query: seq<QueryParam>)

  /** The failures `GenerateZAPReport` reports, each a distinct kind. */
  datatype ZapError =
    | SettingsUnavailable(cause: string)
    | RequestFailed(cause: string)
    | ResponseUnreadable(cause: string)
    | BackendRejected(status: int)
    | Undecodable
    | EmptyArtifact

  /** What happened to the local catalog entry; never part of the result. */
  datatype Bookkeeping =
    | NotAttempted
    | UserMissing
    | WriteFailed(cause: string)
    | Saved(record: Report)

  datatype Generation = Generation(
    request: Option<ZapRequest>,
    result: Result<string, ZapError>,
    bookkeeping: Bookkeeping,
    db: Db)

  /** The catalog entry for a generated report, owned by the acting user's company. */
  function CatalogEntry(user: User, title: string, path: string): (r: Report)
    ensures r.name == title && r.downloadLink == path
    ensures r.companyId == user.companyId && r.reportType == ZapTag
  {
    Report(title, user.companyId, path, ZapTag)
  }

  /** The bookkeeping half, services/reportService.go:238-259: find the user,
      then add one record; either failure only skips the record. */
  function RecordReport(db: Db, userId: Uuid, title: string, path: string, writeFault: Option<string>): (g: Generation)
    ensures g.result == Success(path) && g.request.None?
    ensures g.bookkeeping.Saved? <==> userId in db.users && writeFault.None?
    ensures g.bookkeeping.Saved? ==>
              && g.bookkeeping.record == CatalogEntry(db.users[userId], title, path)
              && g.db == db.(reports := db.reports + [g.bookkeeping.record])
    ensures !g.bookkeeping.Saved? ==> g.db == db
  {
    if userId !in db.users then Generation(None, Success(path), UserMissing, db)
    else if writeFault.Some? then Generation(None, Success(path), WriteFailed(writeFault.value), db)
    else
      var record := CatalogEntry(db.users[userId], title, path);
      Generation(None, Success(path), Saved(record), db.(reports := db.reports + [record]))
  }

  /** `GenerateZAPReport`. `settings` is the answer of the ZAP settings
      lookup, `reply` the scanner's answer (decoded to its `generate` field),
      `writeFault` a failure of the database insert. */
  function GenerateZapReport(
    db: Db, userId: Uuid, title: string, sites: seq<string>,
    settings: Result<ScannerSetting, string>, reply: Reply<string>, writeFault: Option<string>): (g: Generation)
    // the request is built from the settings and the inputs, and sent only when the settings exist
    ensures g.request.Some? <==> settings.Success?
    ensures g.request.Some? ==>
              g.request.value == ZapRequest(settings.value.scannerUrl, settings.value.scannerPort,
                                            settings.value.apiKey, GeneratePath,
                                            GenerationQuery(settings.value.apiKey, title, sites))
    // success exactly when a 200 reply decodes to a non-empty path, which is returned
    ensures g.result.Success? <==>
              && settings.Success? && reply.Delivered? && reply.status == 200
              && reply.decoded.Some? && reply.decoded.value != ""
    ensures g.result.Success? ==> g.result.value == reply.decoded.value
    // the failure kinds, in the order the Go code checks them
    ensures settings.Failure? ==> g.result == Failure(SettingsUnavailable(settings.error))
    ensures settings.Success? && reply.TransportFailure? ==> g.result == Failure(RequestFailed(reply.err))
    ensures settings.Success? && reply.Unreadable? ==> g.result == Failure(ResponseUnreadable(reply.err))
    ensures settings.Success? && reply.Delivered? && reply.status != 200 ==>
              g.result == Failure(BackendRejected(reply.status))
    ensures settings.Success? && reply.Delivered? && reply.status == 200 && reply.decoded.None? ==>
              g.result == Failure(Undecodable)
    ensures settings.Success? && reply.Delivered? && reply.status == 200 && reply.decoded == Some("") ==>
              g.result == Failure(EmptyArtifact)
    // a failure touches nothing; a success adds at most the one catalog entry
    ensures g.result.Failure? ==> g.db == db && g.bookkeeping == NotAttempted
    ensures g.bookkeeping.Saved? <==> g.result.Success? && userId in db.users && writeFault.None?
    ensures g.bookkeeping.Saved? ==>
              && g.bookkeeping.record == Report(title, db.users[userId].companyId, g.result.value, ZapTag)
              && g.db == db.(reports := db.reports + [g.bookkeeping.record])
    ensures !g.bookkeeping.Saved? ==> g.db == db
  {
    match settings
    case Failure(e) => Generation(None, Failure(SettingsUnavailable(e)), NotAttempted, db)
    case Success(s) =>
      var request := Some(ZapRequest(s.scannerUrl, s.scannerPort, s.apiKey, GeneratePath,
                                     GenerationQuery(s.apiKey, title, sites)));
      match reply
      case TransportFailure(e) => Generation(request, Failure(RequestFailed(e)), NotAttempted, db)
      case Unreadable(_, e) => Generation(request, Failure(ResponseUnreadable(e)), NotAttempted, db)
      case Delivered(status, decoded) =>
        if status != 200 then Generation(request, Failure(BackendRejected(status)), NotAttempted, db)
        else if decoded.None? then Generation(request, Failure(Undecodable), NotAttempted, db)
        else if decoded.value == "" then Generation(request, Failure(EmptyArtifact), NotAttempted, db)
        else RecordReport(db, userId, title, decoded.value, writeFault).(request := request)
  }

  /** The reports of one company with one type tag, in store order. */
  function FilterReports(reports: seq<Report>, companyId: Uuid, tag: string): (r: seq<Report>)
    ensures |r| <= |reports|
    ensures forall x :: x in r <==> x in reports && x.companyId == companyId && x.reportType == tag
    decreases |reports|
  {
    if |reports| == 0 then []
    else
      var rest := FilterReports(reports[1..], companyId, tag);
      assert forall x :: x in reports <==> x == reports[0] || x in reports[1..];
      if reports[0].companyId == companyId && reports[0].reportType == tag then [reports[0]] + rest
      else rest
  }

  /** Filtering distributes over appending to the store. */
  lemma {:induction false} FilterAppend(a: seq<Report>, b: seq<Report>, companyId: Uuid, tag: string)
    ensures FilterReports(a + b, companyId, tag) == FilterReports(a, companyId, tag) + FilterReports(b, companyId, tag)
    decreases |a|
  {
    if |a| == 0 {
      assert a + b == b;
    } else {
      assert (a + b)[0] == a[0];
      assert (a + b)[1..] == a[1..] + b;
      FilterAppend(a[1..], b, companyId, tag);
    }
  }

  datatype ListError = UserNotFound | QueryFailed(cause: string)

  /** `GetZAPReports`: the acting user's company's ZAP reports. `queryFault`
      is a failure of the report query. */
  function GetZapReports(db: Db, userId: Uuid, queryFault: Option<string>): (r: Result<seq<Report>, ListError>)
    ensures userId !in db.users ==> r == Failure(UserNotFound)
    ensures userId in db.users && queryFault.Some? ==> r == Failure(QueryFailed(queryFault.value))
    ensures r.Success? ==> userId in db.users && queryFault.None?
    ensures r.Success? ==> r.value == FilterReports(db.reports, db.users[userId].companyId, ZapTag)
    ensures r.Success? ==>
              forall x :: x in r.value <==>
                x in db.reports && x.companyId == db.users[userId].companyId && x.reportType == ZapTag
  {
    if userId !in db.users then Failure(UserNotFound)
    else if queryFault.Some? then Failure(QueryFailed(queryFault.value))
    else Success(FilterReports(db.reports, db.users[userId].companyId, ZapTag))
  }

  /** A saved generation shows up at the end of its author's listing, and
      every other listing stays as it was. */
  lemma GenerationThenListing(
    db: Db, userId: Uuid, title: string, sites: seq<string>,
    settings: Result<ScannerSetting, string>, reply: Reply<string>, writeFault: Option<string>, viewer: Uuid)
    requires viewer in db.users
    ensures var g := GenerateZapReport(db, userId, title, sites, settings, reply, writeFault);
            var before := FilterReports(db.reports, db.users[viewer].companyId, ZapTag);
            var after := GetZapReports(g.db, viewer, None);
            && after.Success?
            && (g.bookkeeping.Saved? && db.users[viewer].companyId == db.users[userId].companyId ==>
                  after.value == before + [g.bookkeeping.record])
            && (!g.bookkeeping.Saved? || db.users[viewer].companyId != db.users[userId].companyId ==>
                  after.value == before)
  {
    var g := GenerateZapReport(db, userId, title, sites, settings, reply, writeFault);
    if g.bookkeeping.Saved? {
      FilterAppend(db.reports, [g.bookkeeping.record], db.users[viewer].companyId, ZapTag);
    }
  }

  /** Company isolation: a listing never shows another company's report,
      whatever sequence of generations filled the store. */
  lemma ListingIsCompanyScoped(db: Db, userId: Uuid, x: Report)
    requires GetZapReports(db, userId, None).Success?
    requires x.companyId != db.users[userId].companyId
    ensures x !in GetZapReports(db, userId, None).value
  {
  }

  /** Two example outcomes: an empty path is a failure of its own kind,
      and a generated path survives a failed catalog write. */
  lemma GenerationExamples(db: Db, userId: Uuid, s: ScannerSetting)
    ensures GenerateZapReport(db, userId, "t", ["a"], Success(s), Delivered(200, Some("")), None).result
            == Failure(EmptyArtifact)
    ensures var g := GenerateZapReport(db, userId, "t", ["a"], Success(s), Delivered(200, Some("/tmp/r.html")), Some("db down"));
            g.result == Success("/tmp/r.html") && g.db == db
  {
  }
}
